=== FILE: README.md ===
# REST API test harness: a Dafny model of its tooling core

This project models the sequential logic at the heart of a C# REST API test
harness: the method-to-expected-status policy and the status validation of
its HTTP tool, the helper operations built on it (fetching, deleting and
creating users, checking that an object is gone), the structural equality of
its `User`/`Work` payload records, the cleanup-action runner of its test base
class, and the list-inclusion check of its utilities. The server is not
modelled: every operation takes the server's response (status code and
reason phrase) as an input.

Modules, one per source file or concern:

- `Wrappers` (`wrappers.dfy`): `Option`, `Result`, `Outcome`.
- `Numerals` (`numerals.dfy`): .NET `int` range and decimal rendering as
  string interpolation writes it in the invariant culture, with a parser and a round-trip proof.
- `Users` (`users.dfy`): `Work`, `User`, `Equals`, `AreUsersEqual`
  (Models/User.cs, Models/Work.cs).
- `HttpTool` (`http_tool.dfy`): methods, status codes with the RFC 9110
  meanings (200 OK section 15.3.1, 201 Created section 15.3.2, 204 No Content
  section 15.3.5, 404 Not Found section 15.5.5, the 2xx class section 15.3),
  request dispatch and validation, and the user helpers (Tools/HttpTool.cs).
- `TestBase` (`test_base.dfy`): the cleanup list, `AddCleanupAction`,
  `CallCleanupActions`, `TestCleanup`, `TestInitialize` (Tests/TestBase.cs).
- `Utils` (`utils.dfy`): LINQ `Intersect`/`Distinct` and `DoesIncludeList`
  (Tools/Utils.cs).

Notes on what the C# code does:

- `DeleteUser` keeps the default `toValidateStatusCode = true`
  (Tools/HttpTool.cs:28, 125), so it fails unless the server answers
  exactly 204.
- The random user's number is drawn by `Random.Next(1000, 9999)`, whose upper
  bound is exclusive: the number is 1000 through 9998.
- When set-up fails and cleanup also throws, the exception thrown by
  `CallCleanupActions` leaves `TestInitialize`, and the set-up error is
  discarded (Tests/TestBase.cs:34-37).
- The cleanup list is never emptied after running: it is reversed in place
  and stays reversed until the next `TestInitialize` clears it.
- `User` overrides `Equals` but not `GetHashCode`.
- The base class's `Initialize` is an empty, non-virtual method, so as
  written set-up never fails; `TestInitialize` takes the set-up hook as a
  parameter to model the failure path, and `TestInitializeAsWritten` states
  what happens with the empty hook.

## Model

| member | source | states |
|---|---|---|
| `Numerals.NatToString` | Tools/HttpTool.cs:106 | the decimal rendering is a non-empty run of digits, without a leading zero, whose value is the number |
| `Numerals.IntToString` | Tools/HttpTool.cs:124 | an id renders in canonical decimal: a '-' exactly when negative, then digits with no leading zero (only 0 itself starts with '0'); with `ParseIntToString` it reads back as the id |
| `Numerals.ParseIntToString` | Tools/HttpTool.cs:124 | parsing the rendering of any `int`, negative ones included, gives back that `int` |
| `Numerals.IntToStringInjective` | Tools/HttpTool.cs:131 | two ids render to the same text exactly when they are the same id |
| `Numerals.FourDigits` | Tools/HttpTool.cs:105-106 | every number the random draw can produce renders as exactly four digits |
| `Users.AreUsersEqual` | Models/User.cs:25-33 | two users are equal exactly when they differ at most in their identifier; the Work references need only be non-null when Name, Age and Location already match |
| `Users.Equals` | Models/User.cs:14-23 | null and non-User arguments are unequal; a User argument is equal exactly when it differs at most in its identifier |
| `Users.EqualityIgnoresId` | Models/User.cs:27-32 | replacing only the identifier never breaks equality |
| `Users.EachComparedFieldIsSignificant` | Models/User.cs:27-32 | changing any one of Name, Age, Location, Work.Name, Work.Location, Work.Rating makes the users unequal |
| `Users.EqualityReflexive` | Models/User.cs:27-32 | a user with a Work is equal to itself |
| `Users.EqualitySymmetric` | Models/User.cs:27-32 | the comparison is safe in both directions and gives the same answer both ways |
| `Users.EqualityTransitive` | Models/User.cs:27-32 | equality chains across three users with Work present |
| `HttpTool.ExpectedStatus` | Tools/HttpTool.cs:35-54 | GET expects 200, POST 201, PUT/PATCH/DELETE 204, each in both directions, and every expected status is 2xx |
| `HttpTool.ValidateStatusCode` | Tools/HttpTool.cs:82-86 | a non-2xx status fails the first assertion with verb, status and reason phrase; a 2xx status other than the expected one fails the second with both codes; for a 2xx expectation it passes exactly on the expected status |
| `HttpTool.MakeRequestToServer` | Tools/HttpTool.cs:28-72 | with validation on the call succeeds exactly on the method's expected status; with it off every response is returned; a returned response is the server's, unchanged |
| `HttpTool.EnsureObjectIsNotFound` | Tools/HttpTool.cs:88-101 | a GET of the path that accepts exactly status 404, reporting the reason phrase for a 2xx status and the status for any other error |
| `HttpTool.UserPath` | Tools/HttpTool.cs:131 | the path is "api/users/" followed by the canonical decimal rendering of the id, which parses back to the id |
| `HttpTool.UserPathInjective` | Tools/HttpTool.cs:124 | distinct user ids address distinct paths |
| `HttpTool.GetUserById` | Tools/HttpTool.cs:129-135 | a GET of the user's path that succeeds exactly on 200 and then yields the served user |
| `HttpTool.DeleteUser` | Tools/HttpTool.cs:122-127 | a DELETE of the user's path that succeeds exactly on 204 |
| `HttpTool.RandomUser` | Tools/HttpTool.cs:105-108 | the name is "RandomUser" and four digits reading back as the drawn number; Age 20, Location "NY", Work {"Sela", "BB", 5}; no identifier |
| `HttpTool.RandomUsersEqualIffSameNumber` | Tools/HttpTool.cs:105-108 | two random users are equal exactly when built from the same draw |
| `HttpTool.CreateAndPostRandomUser` | Tools/HttpTool.cs:103-120 | POSTs the random user to "api/users"; succeeds exactly on 201 and then yields the identifier the server sent back |
| `TestBase.FailuresOf` | Tests/TestBase.cs:62-73 | the collected errors are exactly those of the failing actions, in order |
| `TestBase.FailuresOfCount` | Tests/TestBase.cs:62-73 | one error is collected per failing action: the count equals the number of actions that do not succeed |
| `TestBase.NoFailuresIffAllSucceed` | Tests/TestBase.cs:75-76 | nothing is collected exactly when every action succeeds |
| `TestBase.FailuresOfReverse` | Tests/TestBase.cs:59-73 | running the actions last-first reports their failures last-first |
| `TestBase.ReverseReverse` | Tests/TestBase.cs:59 | reversing the list twice restores it |
| `TestBase.CallCleanupActionsTwice` | Tests/TestBase.cs:57-82 | because the list is reversed in place and never emptied, a second cleanup run walks it in registration order, leaves it as registered, and reports the failures first-registered first |
| `TestBase.AddCleanupAction` | Tests/TestBase.cs:84-87 | the action is appended; the earlier actions keep their positions |
| `TestBase.RegisterAllAppends` | Tests/TestBase.cs:84-87 | successive registrations leave the actions in registration order after those already present |
| `TestBase.ReverseList` | Tests/TestBase.cs:59 | the stored list becomes its reverse: last registered first |
| `TestBase.RunAll` | Tests/TestBase.cs:62-73 | walking the stored actions, a failure does not stop the later ones, and the failures are collected exactly, in stored order |
| `TestBase.CallCleanupActions` | Tests/TestBase.cs:57-82 | the list is walked last registered first, every action's failure collected (the `executed` trace is constructed from that order, not observed); no failure returns normally, one failure is rethrown as is, two or more are thrown as one aggregate holding all of them in execution order; the stored list ends reversed |
| `TestBase.TestCleanup` | Tests/TestBase.cs:48-55 | cleanup walks the actions last-first (the `executed` trace is constructed, not observed); it returns normally exactly when every action succeeds, rethrows a single failure as is, and throws two or more as one aggregate ordered last-registered first |
| `TestBase.TestInitialize` | Tests/TestBase.cs:24-42 | earlier actions are dropped; when set-up succeeds the list holds what it registered; when it throws, cleanup walks its actions last-first (the `executed` trace is constructed, not observed) and the set-up error propagates unless cleanup threw, whose error then replaces it |
| `TestBase.TestInitializeAsWritten` | Tests/TestBase.cs:45 | with the base class's empty `Initialize`, set-up returns normally and leaves an empty list |
| `Utils.DoesIncludeList` | Tools/Utils.cs:14 | the check as written holds exactly when the expected list has no repeats and every expected element occurs in the list |
| `Utils.Intersect` | Tools/Utils.cs:14 | the intersection holds no repeats and exactly the elements common to both lists |
| `Utils.DoesIncludeListCharacterization` | Tools/Utils.cs:14 | the intersection is as long as the expected list exactly when the expected list has no repeats and all its elements are in the list |
| `Utils.EmptyExpectedIsIncluded` | Tools/Utils.cs:14 | an empty expected list is always included |
| `Utils.OnlyExpectedMembershipMatters` | Tools/Utils.cs:14 | two searched lists that hold the same expected elements give the same answer: order, repetitions and extra unexpected elements do not matter |
| `Utils.DuplicateExpectedIsNeverIncluded` | Tools/Utils.cs:14 | an expected list with a repeated element is never included |
| `Utils.DuplicateExpectedCounterexample` | Tools/Utils.cs:14 | ["users"] contains every element of ["users", "users"], yet the check fails |
| `Utils.Distinct` | Tools/Utils.cs:14 | the distinct elements, no repeats, same element set |
| `Utils.IncludesAllCharacterization` | Tools/Utils.cs:14 | the corrected check holds exactly when every expected element is in the list |
| `Utils.IncludesAllAgreesWithoutDuplicates` | Tools/Utils.cs:14 | on expected lists without repeats the corrected check and the original agree |

## Left out

- HTTP transport (`CreateClient`, `GetAsync`/`PostAsync`/`PutAsync`/`PatchAsync`/`DeleteAsync`, `Task.Wait`, URI parsing, headers): network I/O and library calls; the response is an input.
- Request methods other than GET, POST, PUT, PATCH and DELETE: the dispatch has no case for them, leaves `responseTask` null and faults when it waits on it, so the method type admits only the five.
- JSON serialisation and deserialisation (`DeserializeFromResponseMessage`, `ConvertObjectToHttpContent`, `ConvertJsonToHttpContent`) and `ReadContentFromMessage`: foreign library calls; the deserialised user is an input.
- Console logging (`PrintToLogOnFailure`, `PrintAllList`, the lifecycle banners): output only. Its second condition prints the mismatch message when the codes are equal, which affects no result.
- `ToString` of `User` and `Work`: cosmetic.
- `GetHashCode`: not overridden in the source.
- The end-to-end scenarios of Tests/TestCases.cs: they need a live server.
- HttpTool.CreateAndPostRandomUser: yields the server's identifier as the string-or-null the `User` record holds. The source returns that `string` Id (Models/User.cs:9) from a method declared `int` (Tools/HttpTool.cs:103, 119), so that line does not compile; the model keeps the string.
- Utils.DoesIncludeList: elements are compared by value, which is what the two call sites get with `List<string>`; LINQ's default comparer calls `Equals` and `GetHashCode`, so for a type such as `User`, which overrides `Equals` but not `GetHashCode`, the C# check can treat equal elements as distinct. Null arguments, which make `Intersect` throw, are not modelled.
- Numerals.IntToString: writes a negative id with an ASCII '-', the invariant culture's sign; the interpolation at Tools/HttpTool.cs:124 and 131 uses the current culture, whose negative sign may be another character (U+2212 in some cultures).
- TestBase.CallCleanupActions: actions do not modify the cleanup list while it runs. In the source, an action that called `AddCleanupAction` during cleanup would make the `foreach` enumerator throw outside the `try`, skipping the remaining actions and losing the collected failures.
- Users.AreUsersEqual: Name and Location are non-null strings; null strings are not modelled.
- Users.AreUsersEqual: `Work.Rating` is an exact real; floating-point rounding and NaN are not modelled.
- HttpTool.ValidateStatusCode: failure messages are structured values holding the verb, codes and reason phrase, not the formatted text.
- HttpTool.EnsureObjectIsNotFound: the 404 assertion's failure carries the integer status, whereas the source's message is `StatusCode.ToString()`, the enum member's name (Tools/HttpTool.cs:98).
- TestBase.CallCleanupActions: the aggregate keeps the message passed to its constructor (Tests/TestBase.cs:81); .NET's `AggregateException.Message` also appends the inner exceptions' messages, which is not modelled.
- `Random.Next`: the drawn number is a parameter bounded as its contract promises.

## Findings

| source | as written | input that shows it | evidently intended | confidence | as-written member | corrected member |
|---|---|---|---|---|---|---|
| Tools/Utils.cs:14 | compares the count of the distinct intersection with the full count of the expected list, so any repeated expected element makes the check fail | list ["users"], expected ["users", "users"]: false | true whenever every expected element occurs in the list | medium; not executed | `Utils.DuplicateExpectedCounterexample` | `Utils.IncludesAllCharacterization` |

=== FILE: http_tool.dfy ===
/** The request/response layer of the harness. The server is not modelled:
    each operation takes the response the server gave (its status code and
    reason phrase) as an input, and returns either that response or the
    assertion failure the tool raises. Status codes follow the semantics of
    RFC 9110, section 15. */
module HttpTool {
  import opened Wrappers
  import opened Numerals
  import opened Users

  /** The five request methods the tool dispatches. .NET's HttpMethod also
      admits HEAD, OPTIONS and custom verbs, but for those the dispatch leaves
      no request to wait on and the call faults; they are not representable. */
  datatype Method = Get | Post | Put | Patch | Delete
  {
    /** The verb as it appears on the wire and in failure messages. */
    function Verb(): string {
      match this
      case Get => "GET"
      case Post => "POST"
      case Put => "PUT"
      case Patch => "PATCH"
      case Delete => "DELETE"
    }
  }

  /** An HTTP status code; .NET rejects codes outside 0..999. */
  type StatusCode = c: int | 0 <= c <= 999

  const OK: StatusCode := 200         // RFC 9110, section 15.3.1
  const Created: StatusCode := 201    // RFC 9110, section 15.3.2
  const NoContent: StatusCode := 204  // RFC 9110, section 15.3.5
  const NotFound: StatusCode := 404   // RFC 9110, section 15.5.5

  /** The 2xx (Successful) class, RFC 9110 section 15.3; this is .NET's
      `IsSuccessStatusCode`. */
  predicate IsSuccess(code: StatusCode) {
    200 <= code <= 299
  }

  /** What the server answered: the status code and its reason phrase. */
  datatype Response = Response(status: StatusCode, reason: string)

  /** The failed assertions of the tool, carrying what their messages report. */
  datatype AssertFailure =
    | /** validation: the status is not 2xx */
      NotSuccessful(verb: string, actual: StatusCode, reason: string)
    | /** validation: the status is 2xx but not the one expected */
      StatusMismatch(verb: string, expected: StatusCode, actual: StatusCode)
    | /** not-found check: the status is 2xx; the message is the reason phrase */
      UnexpectedSuccess(reason: string)
    | /** not-found check: the status is an error other than 404 */
      NotNotFound(actual: StatusCode)

  /** A request as the tool sends it. */
  datatype Request = Request(httpMethod: Method, path: string, body: Option<User>)

  /** One exchange: the request sent and what the caller gets back. */
  datatype Call<T> = Call(request: Request, result: Result<T, AssertFailure>)

  /** The status each method must return: 200 for GET, 201 for POST, 204 for
      PUT, PATCH and DELETE. Every expected status is in the 2xx class. */
  function ExpectedStatus(m: Method): (code: StatusCode)
    ensures IsSuccess(code)
    ensures code == OK <==> m == Get
    ensures code == Created <==> m == Post
    ensures code == NoContent <==> m in {Put, Patch, Delete}
  {
    match m
    case Get => OK
    case Post => Created
    case Put => NoContent
    case Patch => NoContent
    case Delete => NoContent
  }

  /** The two assertions of status validation, in order: first the status
      must be 2xx, then it must equal the expected one. */
  function ValidateStatusCode(m: Method, expected: StatusCode, response: Response): (r: Outcome<AssertFailure>)
    ensures r.Pass? ==> response.status == expected
    ensures IsSuccess(expected) ==> (r.Pass? <==> response.status == expected)
    ensures !IsSuccess(response.status) ==> r == Fail(NotSuccessful(m.Verb(), response.status, response.reason))
    ensures IsSuccess(response.status) && response.status != expected ==>
              r == Fail(StatusMismatch(m.Verb(), expected, response.status))
  {
    if !IsSuccess(response.status) then Fail(NotSuccessful(m.Verb(), response.status, response.reason))
    else if response.status != expected then Fail(StatusMismatch(m.Verb(), expected, response.status))
    else Pass
  }

  /** Sending a request: with validation on, the call succeeds exactly when the
      server answered the method's expected status; with validation off, the
      response comes back whatever its status. A successful call returns the
      server's response unchanged. */
  function MakeRequestToServer(m: Method, response: Response, validate: bool): (r: Result<Response, AssertFailure>)
    ensures r.Success? ==> r.value == response
    ensures !validate ==> r.Success?
    ensures validate ==> (r.Success? <==> response.status == ExpectedStatus(m))
    ensures validate && !IsSuccess(response.status) ==>
              r == Failure(NotSuccessful(m.Verb(), response.status, response.reason))
    ensures validate && IsSuccess(response.status) && response.status != ExpectedStatus(m) ==>
              r == Failure(StatusMismatch(m.Verb(), ExpectedStatus(m), response.status))
  {
    if validate then
      match ValidateStatusCode(m, ExpectedStatus(m), response)
      case Fail(e) => Failure(e)
      case Pass => Success(response)
    else Success(response)
  }

  /** A GET whose response must be an error, and that error 404; accepts
      exactly the responses with status 404. */
  function EnsureObjectIsNotFound(path: string, response: Response): (c: Call<Response>)
    ensures c.request == Request(Get, path, None)
    ensures c.result.Success? <==> response.status == NotFound
    ensures c.result.Success? ==> c.result.value == response
    ensures IsSuccess(response.status) ==> c.result == Failure(UnexpectedSuccess(response.reason))
    ensures !IsSuccess(response.status) && response.status != NotFound ==>
              c.result == Failure(NotNotFound(response.status))
  {
    var result :=
      if IsSuccess(response.status) then Failure(UnexpectedSuccess(response.reason))
      else if response.status != NotFound then Failure(NotNotFound(response.status))
      else Success(response);
    Call(Request(Get, path, None), result)
  }

  const UsersPrefix := "api/users/"

  /** The resource path of one user: "api/users/" followed by the id in decimal. */
  function UserPath(userId: Int32): (path: string)
    ensures |path| > |UsersPrefix| && path[..|UsersPrefix|] == UsersPrefix
    ensures path[|UsersPrefix|..] == IntToString(userId)
    ensures ParseUserPath(path) == Some(userId as int)
  {
    var path := UsersPrefix + IntToString(userId);
    assert path[|UsersPrefix|..] == IntToString(userId);
    ParseIntToString(userId);
    path
  }

  /** Reads the user id back out of a user path. */
  function ParseUserPath(path: string): Option<int> {
    if |path| >= |UsersPrefix| && path[..|UsersPrefix|] == UsersPrefix then ParseInt(path[|UsersPrefix|..])
    else None
  }

  /** Distinct user ids address distinct paths. */
  lemma UserPathInjective(i: Int32, j: Int32)
    ensures UserPath(i) == UserPath(j) <==> i == j
  {
  }

  /** `GetUserById`: a validated GET of the user's path; the call succeeds
      exactly when the server answered 200, and then yields the user the
      server returned. */
  function GetUserById(userId: Int32, response: Response, served: User): (c: Call<User>)
    ensures c.request.httpMethod == Get && c.request.body.None?
    ensures ParseUserPath(c.request.path) == Some(userId as int)
    ensures c.result.Success? <==> response.status == OK
    ensures c.result.Success? ==> c.result.value == served
  {
    var request := Request(Get, UserPath(userId), None);
    match MakeRequestToServer(Get, response, true)
    case Success(_) => Call(request, Success(served))
    case Failure(e) => Call(request, Failure(e))
  }

  /** `DeleteUser`: a DELETE of the user's path with the default validation on,
      so it fails unless the server answered exactly 204. */
  function DeleteUser(userId: Int32, response: Response): (c: Call<()>)
    ensures c.request.httpMethod == Delete && c.request.body.None?
    ensures ParseUserPath(c.request.path) == Some(userId as int)
    ensures c.result.Success? <==> response.status == NoContent
  {
    var request := Request(Delete, UserPath(userId), None);
    match MakeRequestToServer(Delete, response, true)
    case Success(_) => Call(request, Success(()))
    case Failure(e) => Call(request, Failure(e))
  }

  const RandomUserPrefix := "RandomUser"

  /** The user `CreateAndPostRandomUser` builds from the drawn number `n`.
      `Random.Next(1000, 9999)` excludes its upper bound, so `n` is at most 9998.
      The name is "RandomUser" and four digits that read back as `n`; the other
      fields are fixed and the identifier is left unset. */
  function RandomUser(n: int): (u: User)
    requires 1000 <= n < 9999
    ensures u.id == None
    ensures |u.name| == |RandomUserPrefix| + 4 && u.name[..|RandomUserPrefix|] == RandomUserPrefix
    ensures IsDigits(u.name[|RandomUserPrefix|..]) && ValueOf(u.name[|RandomUserPrefix|..]) == n
    ensures u.age == 20 && u.location == "NY"
    ensures u.work == Some(Work("Sela", "BB", 5.0))
  {
    FourDigits(n);
    var name := RandomUserPrefix + IntToString(n);
    assert name[|RandomUserPrefix|..] == NatToString(n);
    User(None, name, 20, "NY", Some(Work("Sela", "BB", 5.0)))
  }

  /** Two random users are equal exactly when they were built from the same
      number: the drawn number is the only thing that tells them apart. */
  lemma RandomUsersEqualIffSameNumber(n: int, m: int)
    requires 1000 <= n < 9999 && 1000 <= m < 9999
    ensures AreUsersEqual(RandomUser(n), RandomUser(m)) <==> n == m
  {
    var a, b := RandomUser(n), RandomUser(m);
    if a.name == b.name {
      assert a.name[|RandomUserPrefix|..] == b.name[|RandomUserPrefix|..];
    }
  }

  /** `CreateAndPostRandomUser`: POSTs the random user to "api/users" with
      validation on; succeeds exactly when the server answered 201, and then
      yields the identifier of the user the server sent back. */
  function CreateAndPostRandomUser(n: int, response: Response, served: User): (c: Call<Option<string>>)
    requires 1000 <= n < 9999
    ensures c.request.httpMethod == Post && c.request.path == "api/users"
    ensures c.request.body == Some(RandomUser(n))
    ensures c.result.Success? <==> response.status == Created
    ensures c.result.Success? ==> c.result.value == served.id
  {
    var request := Request(Post, "api/users", Some(RandomUser(n)));
    match MakeRequestToServer(Post, response, true)
    case Success(_) => Call(request, Success(served.id))
    case Failure(e) => Call(request, Failure(e))
  }
}

=== FILE: numerals.dfy ===
/** Decimal rendering of .NET integers, as string interpolation writes an
    `int` into a path or a name, and the parser that reads it back. */
module Numerals {
  import opened Wrappers

  /** The range of a .NET `int` (System.Int32). */
  type Int32 = x: int | -0x8000_0000 <= x < 0x8000_0000

  predicate IsDigit(c: char) {
    '0' <= c <= '9'
  }

  /** True iff `s` is a non-empty run of decimal digits. */
  predicate IsDigits(s: string) {
    |s| > 0 && forall k :: 0 <= k < |s| ==> IsDigit(s[k])
  }

  function DigitValue(c: char): (d: nat)
    requires IsDigit(c)
    ensures d < 10
  {
    (c as int) - ('0' as int)
  }

  function DigitChar(d: nat): (c: char)
    requires d < 10
    ensures IsDigit(c) && DigitValue(c) == d
  {
    (('0' as int) + d) as char
  }

  /** The number a run of digits denotes, most significant digit first. */
  function ValueOf(s: string): nat
    requires forall k :: 0 <= k < |s| ==> IsDigit(s[k])
    decreases |s|
  {
    if s == [] then 0 else ValueOf(s[..|s| - 1]) * 10 + DigitValue(s[|s| - 1])
  }

  /** The shortest decimal rendering of `n`: digits only, no leading zero. */
  function NatToString(n: nat): (s: string)
    ensures IsDigits(s)
    ensures ValueOf(s) == n
    ensures s[0] == '0' ==> n == 0
    decreases n
  {
    if n < 10 then [DigitChar(n)]
    else
      var prefix := NatToString(n / 10);
      var s := prefix + [DigitChar(n % 10)];
      assert s[..|s| - 1] == prefix;
      s
  }

  /** How .NET renders an `int` in the invariant culture: a leading '-' for negatives. */
  function IntToString(i: int): (s: string)
    ensures |s| > 0
    ensures i < 0 <==> s[0] == '-'
    ensures i >= 0 ==> IsDigits(s) && (s[0] == '0' ==> i == 0)
    ensures i < 0 ==> IsDigits(s[1..]) && s[1] != '0'
  {
    if i < 0 then
      var s := "-" + NatToString(-i);
      assert s[1..] == NatToString(-i);
      s
    else NatToString(i)
  }

  /** Reads back an optionally signed run of digits; None for anything else. */
  function ParseInt(s: string): (r: Option<int>)
    ensures r.Some? && s != [] && s[0] != '-' ==> r.value >= 0
  {
    if |s| > 0 && s[0] == '-' then
      if IsDigits(s[1..]) then Some(0 - ValueOf(s[1..]) as int) else None
    else if IsDigits(s) then Some(ValueOf(s))
    else None
  }

  /** Rendering an integer and parsing it back yields the same integer. */
  lemma ParseIntToString(i: int)
    ensures ParseInt(IntToString(i)) == Some(i)
  {
    if i < 0 {
      assert IntToString(i)[1..] == NatToString(-i);
    }
  }

  /** Distinct integers render as distinct strings. */
  lemma IntToStringInjective(i: int, j: int)
    ensures IntToString(i) == IntToString(j) <==> i == j
  {
    ParseIntToString(i);
    ParseIntToString(j);
  }

  /** Every number from 1000 through 9999 renders as exactly four digits. */
  lemma {:induction false} FourDigits(n: nat)
    requires 1000 <= n < 10000
    ensures |NatToString(n)| == 4
  {
    assert |NatToString(n / 1000)| == 1;
    assert |NatToString(n / 100)| == |NatToString(n / 1000)| + 1;
    assert |NatToString(n / 10)| == |NatToString(n / 100)| + 1;
    assert |NatToString(n)| == |NatToString(n / 10)| + 1;
  }
}

=== FILE: test_base.dfy ===
/** The test lifecycle base: a list of cleanup actions registered during a
    test, run last-registered-first at the end, with every failure collected.
    An action is represented by how it ends when run. */
module TestBase {

  /** An exception as the runner sees it: an opaque error raised by an action
      or by the setup hook, or the aggregate the runner builds. */
  datatype Exception =
    | Raised(id: nat)
    | AggregateException(message: string, inner: seq<Exception>)

  /** A registered cleanup action, given by its outcome when invoked. */
  datatype Action = Succeeds | Fails(error: Exception)

  /** How a lifecycle step ends: normal return or a thrown exception. */
  datatype Completion = Normal | Throw(error: Exception)

  /** The per-test state: the cleanup actions in the order they are stored. */
  datatype TestContext = TestContext(cleanupActions: seq<Action>)

  /** The setup hook, given by the actions it registers and how it ends. */
  datatype Hook = Hook(registered: seq<Action>, completion: Completion)

  const AggregateMessage := "Multiple exceptions occured in Cleanup. See test log for more details"

  /** The setup hook of the base class: it registers nothing and returns. */
  const EmptyInitialize := Hook([], Normal)

  /** `s` read back to front. */
  function Reverse<T>(s: seq<T>): (r: seq<T>)
    ensures |r| == |s|
    ensures forall i :: 0 <= i < |s| ==> r[i] == s[|s| - 1 - i]
  {
    if s == [] then [] else Reverse(s[1..]) + [s[0]]
  }

  /** The errors of the failing actions of `executed`, in the same order. */
  function FailuresOf(executed: seq<Action>): (errors: seq<Exception>)
    ensures |errors| <= |executed|
    ensures forall e :: e in errors <==> Fails(e) in executed
  {
    if executed == [] then []
    else
      var rest := FailuresOf(executed[1..]);
      assert executed == [executed[0]] + executed[1..];
      match executed[0]
      case Succeeds => rest
      case Fails(e) => [e] + rest
  }

  /** No failure is collected exactly when every action succeeds. */
  lemma {:induction false} NoFailuresIffAllSucceed(s: seq<Action>)
    ensures FailuresOf(s) == [] <==> forall a :: a in s ==> a == Succeeds
    decreases |s|
  {
    if s != [] {
      NoFailuresIffAllSucceed(s[1..]);
      assert forall a :: a in s <==> a == s[0] || a in s[1..];
    }
  }

  /** One error is collected per failing action: as many as there are
      actions that do not succeed. */
  lemma {:induction false} FailuresOfCount(executed: seq<Action>)
    ensures |FailuresOf(executed)| == |executed| - multiset(executed)[Succeeds]
    decreases |executed|
  {
    if executed != [] {
      FailuresOfCount(executed[1..]);
      assert executed == [executed[0]] + executed[1..];
      assert multiset(executed) == multiset{executed[0]} + multiset(executed[1..]);
    }
  }

  /** Collecting failures distributes over concatenation. */
  lemma {:induction false} FailuresOfAppend(a: seq<Action>, b: seq<Action>)
    ensures FailuresOf(a + b) == FailuresOf(a) + FailuresOf(b)
    decreases |a|
  {
    if a == [] {
      assert a + b == b;
    } else {
      assert (a + b)[1..] == a[1..] + b;
      FailuresOfAppend(a[1..], b);
    }
  }

  /** Running the actions back to front reports their failures back to front. */
  lemma {:induction false} FailuresOfReverse(s: seq<Action>)
    ensures FailuresOf(Reverse(s)) == Reverse(FailuresOf(s))
    decreases |s|
  {
    if s != [] {
      FailuresOfReverse(s[1..]);
      FailuresOfAppend(Reverse(s[1..]), [s[0]]);
      assert s == [s[0]] + s[1..];
      match s[0]
      case Succeeds =>
      case Fails(e) =>
        assert FailuresOf(s) == [e] + FailuresOf(s[1..]);
        assert Reverse(FailuresOf(s)) == Reverse(FailuresOf(s[1..])) + [e];
    }
  }

  /** Reversing twice restores the original order. */
  lemma ReverseReverse<T>(s: seq<T>)
    ensures Reverse(Reverse(s)) == s
  {
    var r := Reverse(Reverse(s));
    assert forall i :: 0 <= i < |s| ==> r[i] == s[i];
  }

  /** `AddCleanupAction`: the action goes to the end of the list; the actions
      already registered stay where they were. */
  function AddCleanupAction(t: TestContext, action: Action): (t': TestContext)
    ensures |t'.cleanupActions| == |t.cleanupActions| + 1
    ensures t'.cleanupActions[..|t.cleanupActions|] == t.cleanupActions
    ensures t'.cleanupActions[|t.cleanupActions|] == action
  {
    t.(cleanupActions := t.cleanupActions + [action])
  }

  /** Registering the actions one after another, in the given order. */
  function RegisterAll(t: TestContext, actions: seq<Action>): TestContext
    decreases |actions|
  {
    if actions == [] then t
    else RegisterAll(AddCleanupAction(t, actions[0]), actions[1..])
  }

  /** Successive registrations keep the actions in registration order behind
      those already present. */
  lemma {:induction false} RegisterAllAppends(t: TestContext, actions: seq<Action>)
    ensures RegisterAll(t, actions).cleanupActions == t.cleanupActions + actions
    decreases |actions|
  {
    if actions != [] {
      RegisterAllAppends(AddCleanupAction(t, actions[0]), actions[1..]);
      assert [actions[0]] + actions[1..] == actions;
    }
  }

  /** `List.Reverse`: the stored actions, last registered first. */
  method ReverseList(actions: seq<Action>) returns (reversed: seq<Action>)
    ensures reversed == Reverse(actions)
  {
    var n := |actions|;
    reversed := [];
    var i := n;
    while i > 0
      invariant 0 <= i <= n
      invariant |reversed| == n - i
      invariant forall j :: 0 <= j < |reversed| ==> reversed[j] == actions[n - 1 - j]
    {
      i := i - 1;
      reversed := reversed + [actions[i]];
    }
  }

  /** The `foreach` of the runner: walks the stored actions in turn, a
      failure not stopping the ones after it, and collects the failures in
      the order walked. */
  method RunAll(stored: seq<Action>) returns (exceptions: seq<Exception>)
    ensures exceptions == FailuresOf(stored)
  {
    exceptions := [];
    var k := 0;
    while k < |stored|
      invariant 0 <= k <= |stored|
      invariant exceptions == FailuresOf(stored[..k])
    {
      FailuresOfAppend(stored[..k], [stored[k]]);
      assert stored[..k + 1] == stored[..k] + [stored[k]];
      if stored[k].Fails? {
        exceptions := exceptions + [stored[k].error];
      }
      k := k + 1;
    }
    assert stored[..k] == stored;
  }

  /** `CallCleanupActions`: reverses the stored list in place, invokes every
      action in that order (last registered first), each exactly once even
      after failures, and ends by returning normally when nothing failed,
      rethrowing the one failure when exactly one action failed, and
      throwing an aggregate of all failures, in execution order, otherwise.
      `executed` lists the positions, in registration order, of the actions
      invoked; it is built from the stored order the walk follows, not
      observed from the walk. The list is not emptied: it stays reversed. */
  method CallCleanupActions(t: TestContext) returns (t': TestContext, executed: seq<nat>, c: Completion)
    ensures t'.cleanupActions == Reverse(t.cleanupActions)
    ensures |executed| == |t.cleanupActions|
    ensures forall i :: 0 <= i < |executed| ==> executed[i] == |t.cleanupActions| - 1 - i
    ensures var errors := FailuresOf(t'.cleanupActions);
            && (|errors| == 0 ==> c == Normal)
            && (|errors| == 1 ==> c == Throw(errors[0]))
            && (|errors| >= 2 ==> c == Throw(AggregateException(AggregateMessage, errors)))
  {
    var n := |t.cleanupActions|;
    var reversed := ReverseList(t.cleanupActions);
    t' := TestContext(reversed);
    var exceptions := RunAll(reversed);
    executed := seq(n, i requires 0 <= i < n => n - 1 - i);

    if |exceptions| == 0 {
      c := Normal;
    } else if |exceptions| == 1 {
      c := Throw(exceptions[0]);
    } else {
      c := Throw(AggregateException(AggregateMessage, exceptions));
    }
  }

  /** Two successive cleanup runs on the same context, as happens when the
      list is not cleared in between: the second run walks the list in
      registration order, leaves it as it was registered, and reports the
      failures first-registered first. */
  method CallCleanupActionsTwice(t: TestContext) returns (t2: TestContext, c2: Completion)
    ensures t2.cleanupActions == t.cleanupActions
    ensures var errors := FailuresOf(t.cleanupActions);
            && (|errors| == 0 ==> c2 == Normal)
            && (|errors| == 1 ==> c2 == Throw(errors[0]))
            && (|errors| >= 2 ==> c2 == Throw(AggregateException(AggregateMessage, errors)))
  {
    var t1, executed1, c1 := CallCleanupActions(t);
    var executed2;
    t2, executed2, c2 := CallCleanupActions(t1);
    ReverseReverse(t.cleanupActions);
  }

  /** `TestCleanup`: runs the registered cleanup actions. */
  method TestCleanup(t: TestContext) returns (t': TestContext, executed: seq<nat>, c: Completion)
    ensures t'.cleanupActions == Reverse(t.cleanupActions)
    ensures |executed| == |t.cleanupActions|
    ensures forall i :: 0 <= i < |executed| ==> executed[i] == |t.cleanupActions| - 1 - i
    ensures c.Normal? <==> forall a :: a in t.cleanupActions ==> a == Succeeds
    ensures |FailuresOf(t.cleanupActions)| == 1 ==> c == Throw(FailuresOf(t.cleanupActions)[0])
    ensures |FailuresOf(t.cleanupActions)| >= 2 ==>
              c == Throw(AggregateException(AggregateMessage, Reverse(FailuresOf(t.cleanupActions))))
  {
    t', executed, c := CallCleanupActions(t);
    FailuresOfReverse(t.cleanupActions);
    var errors := FailuresOf(t.cleanupActions);
    assert |FailuresOf(t'.cleanupActions)| == |errors|;
    NoFailuresIffAllSucceed(t.cleanupActions);
  }

  /** `TestInitialize`: clears the list, runs the setup hook (which may
      register actions), and if the hook throws, runs cleanup and rethrows:
      the hook's own exception when cleanup raised nothing, the cleanup's
      exception otherwise. Actions registered by earlier tests are dropped
      and never run. */
  method TestInitialize(t: TestContext, hook: Hook) returns (t': TestContext, executed: seq<nat>, c: Completion)
    ensures hook.completion.Normal? ==>
              t'.cleanupActions == hook.registered && executed == [] && c == Normal
    ensures hook.completion.Throw? ==>
              && t'.cleanupActions == Reverse(hook.registered)
              && |executed| == |hook.registered|
              && (forall i :: 0 <= i < |executed| ==> executed[i] == |hook.registered| - 1 - i)
              && (FailuresOf(hook.registered) == [] ==> c == hook.completion)
              && (|FailuresOf(hook.registered)| == 1 ==> c == Throw(FailuresOf(hook.registered)[0]))
              && (|FailuresOf(hook.registered)| >= 2 ==>
                    c == Throw(AggregateException(AggregateMessage, Reverse(FailuresOf(hook.registered)))))
  {
    var cleared := TestContext([]);
    var registered := RegisterAll(cleared, hook.registered);
    RegisterAllAppends(cleared, hook.registered);
    assert registered.cleanupActions == hook.registered;
    match hook.completion
    case Normal =>
      t', executed, c := registered, [], Normal;
    case Throw(original) =>
      var cleanup: Completion;
      t', executed, cleanup := CallCleanupActions(registered);
      FailuresOfReverse(hook.registered);
      c := if cleanup.Normal? then hook.completion else cleanup;
  }

  /** `TestInitialize` with the base class's own `Initialize`, which is empty
      and not overridable: set-up always returns normally and leaves an empty
      list, whatever earlier tests registered. */
  method TestInitializeAsWritten(t: TestContext) returns (t': TestContext, executed: seq<nat>, c: Completion)
    ensures t'.cleanupActions == [] && executed == [] && c == Normal
  {
    t', executed, c := TestInitialize(t, EmptyInitialize);
  }
}

=== FILE: users.dfy ===
/** The payload records of the users API and their structural equality.
    `Work` is a plain record; `User` compares six fields and ignores the
    server-assigned identifier. */
module Users {
  import opened Wrappers
  import opened Numerals

  /** A user's employer. The rating is a `double` in the original; here it is
      an exact real, so NaN (the one value not equal to itself) is excluded. */
  datatype Work = Work(name: string, location: string, rating: real)

  /** A user record. `id` is None until the server assigns one; `work` is None
      when the reference is null. */
  datatype User = User(id: Option<string>, name: string, age: Int32, location: string, work: Option<Work>)

  /** The argument of `Equals(object)`: null, a `User`, or some other type. */
  datatype Object = Null | UserObject(user: User) | OtherObject

  /** The comparison dereferences both `Work` references only after Name, Age
      and Location have matched (the `&&` chain short-circuits); the caller
      must make those dereferences safe. */
  predicate WorksComparable(a: User, b: User) {
    a.name == b.name && a.age == b.age && a.location == b.location ==> a.work.Some? && b.work.Some?
  }

  /** Field-by-field comparison of two users: Name, Age, Location and the
      three fields of Work. Two users are equal exactly when they differ at
      most in their identifier. */
  function AreUsersEqual(a: User, b: User): (eq: bool)
    requires WorksComparable(a, b)
    ensures eq <==> a.(id := b.id) == b
  {
    a.name == b.name &&
    a.age == b.age &&
    a.location == b.location &&
    a.work.value.name == b.work.value.name &&
    a.work.value.location == b.work.value.location &&
    a.work.value.rating == b.work.value.rating
  }

  /** `User.Equals(object)`: false for null and for any non-User argument,
      otherwise the structural comparison. */
  function Equals(self: User, obj: Object): (eq: bool)
    requires obj.UserObject? ==> WorksComparable(self, obj.user)
    ensures obj.Null? || obj.OtherObject? ==> !eq
    ensures eq <==> obj.UserObject? && self.(id := obj.user.id) == obj.user
  {
    match obj
    case Null => false
    case OtherObject => false
    case UserObject(other) => AreUsersEqual(self, other)
  }

  /** Changing the identifier alone never breaks equality. */
  lemma EqualityIgnoresId(u: User, id: Option<string>)
    requires u.work.Some?
    ensures AreUsersEqual(u, u.(id := id))
    ensures Equals(u, UserObject(u.(id := id)))
  {
  }

  /** Every one of the six compared fields is significant: changing any one
      of them alone makes the users unequal. */
  lemma EachComparedFieldIsSignificant(u: User, name: string, age: Int32, location: string,
                                       workName: string, workLocation: string, rating: real)
    requires u.work.Some?
    ensures name != u.name ==> !AreUsersEqual(u, u.(name := name))
    ensures age != u.age ==> !AreUsersEqual(u, u.(age := age))
    ensures location != u.location ==> !AreUsersEqual(u, u.(location := location))
    ensures workName != u.work.value.name ==>
              !AreUsersEqual(u, u.(work := Some(u.work.value.(name := workName))))
    ensures workLocation != u.work.value.location ==>
              !AreUsersEqual(u, u.(work := Some(u.work.value.(location := workLocation))))
    ensures rating != u.work.value.rating ==>
              !AreUsersEqual(u, u.(work := Some(u.work.value.(rating := rating))))
  {
  }

  /** Equality is reflexive on users whose Work is present. */
  lemma EqualityReflexive(a: User)
    requires a.work.Some?
    ensures AreUsersEqual(a, a)
  {
  }

  /** Equality is symmetric, and the comparison is safe in both directions. */
  lemma EqualitySymmetric(a: User, b: User)
    requires WorksComparable(a, b)
    ensures WorksComparable(b, a)
    ensures AreUsersEqual(a, b) <==> AreUsersEqual(b, a)
  {
  }

  /** Equality is transitive on users whose Work is present. */
  lemma EqualityTransitive(a: User, b: User, c: User)
    requires a.work.Some? && b.work.Some? && c.work.Some?
    requires AreUsersEqual(a, b) && AreUsersEqual(b, c)
    ensures AreUsersEqual(a, c)
  {
  }
}

=== FILE: utils.dfy ===
/** `DoesIncludeList`: whether one list includes another, computed as in the
    original by comparing the size of a LINQ `Intersect` with the size of the
    expected list. Elements are compared by value. */
module Utils {

  /** The elements of `s`, forgetting order and repetition. */
  function Elements<T>(s: seq<T>): set<T> {
    set x | x in s
  }

  /** No element occurs twice in `s`. */
  predicate NoDuplicates<T(==)>(s: seq<T>) {
    forall i, j :: 0 <= i < j < |s| ==> s[i] != s[j]
  }

  /** The core of LINQ's `Intersect`: walk `xs` and yield each element that
      can still be removed from `pending`, removing it. The contract fixes
      the contents (each common element once) and so the count; the order,
      which the inclusion check does not use, is left unspecified. */
  function IntersectWith<T(==)>(xs: seq<T>, pending: set<T>): (r: seq<T>)
    ensures NoDuplicates(r)
    ensures Elements(r) == Elements(xs) * pending
    decreases |xs|
  {
    if xs == [] then []
    else
      var x := xs[0];
      assert Elements(xs) == {x} + Elements(xs[1..]);
      if x in pending then
        var rest := IntersectWith(xs[1..], pending - {x});
        ConsNoDuplicates(x, rest);
        assert Elements([x] + rest) == {x} + Elements(rest);
        [x] + rest
      else IntersectWith(xs[1..], pending)
  }

  /** Putting a new element in front keeps a sequence free of duplicates. */
  lemma ConsNoDuplicates<T>(x: T, rest: seq<T>)
    requires NoDuplicates(rest) && x !in Elements(rest)
    ensures NoDuplicates([x] + rest)
  {
    var s := [x] + rest;
    forall i, j | 0 <= i < j < |s| ensures s[i] != s[j] {
      assert s[j] == rest[j - 1] && s[j] in Elements(rest);
      if i > 0 {
        assert s[i] == rest[i - 1];
      }
    }
  }

  /** `first.Intersect(second)`: the distinct elements of `first` that occur in
      `second`; only the contents and the count are specified. */
  function Intersect<T(==)>(first: seq<T>, second: seq<T>): (r: seq<T>)
    ensures NoDuplicates(r)
    ensures Elements(r) == Elements(first) * Elements(second)
  {
    IntersectWith(first, Elements(second))
  }

  /** `list.DoesIncludeList(expectedList)` as written: the intersection must be
      as long as the expected list. */
  function DoesIncludeList<T(==)>(list: seq<T>, expectedList: seq<T>): (r: bool)
    ensures r <==> NoDuplicates(expectedList) && forall e :: e in expectedList ==> e in list
  {
    DoesIncludeListCharacterization(list, expectedList);
    |Intersect(list, expectedList)| == |expectedList|
  }

  /** A sequence has at most as many distinct elements as it has positions,
      and exactly as many when it has no duplicates. */
  lemma {:induction false} ElementsCardinality<T>(s: seq<T>)
    ensures |Elements(s)| <= |s|
    ensures |Elements(s)| == |s| <==> NoDuplicates(s)
    decreases |s|
  {
    if s != [] {
      var x, rest := s[0], s[1..];
      ElementsCardinality(rest);
      assert Elements(s) == {x} + Elements(rest);
      if x in rest {
        var j :| 0 <= j < |rest| && rest[j] == x;
        assert s[0] == s[j + 1];
      } else {
        assert x !in Elements(rest);
        if NoDuplicates(rest) {
          forall i, j | 0 <= i < j < |s| ensures s[i] != s[j] {
            if i == 0 {
              assert s[j] == rest[j - 1];
            } else {
              assert s[i] == rest[i - 1] && s[j] == rest[j - 1];
            }
          }
        } else {
          var i, j :| 0 <= i < j < |rest| && rest[i] == rest[j];
          assert s[i + 1] == s[j + 1];
        }
      }
    }
  }

  /** The intersection is as long as the expected list exactly when the
      expected list has no duplicates and each of its elements occurs in
      `list`. */
  lemma DoesIncludeListCharacterization<T>(list: seq<T>, expectedList: seq<T>)
    ensures |Intersect(list, expectedList)| == |expectedList| <==>
              NoDuplicates(expectedList) && forall e :: e in expectedList ==> e in list
  {
    var common := Intersect(list, expectedList);
    var E := Elements(expectedList);
    ElementsCardinality(common);
    ElementsCardinality(expectedList);
    assert Elements(common) == Elements(list) * E;
    assert |E - Elements(list)| + |Elements(common)| == |E| by {
      assert E == (E - Elements(list)) + Elements(common);
      assert (E - Elements(list)) !! Elements(common);
    }
    if forall e :: e in expectedList ==> e in list {
      assert E - Elements(list) == {};
    } else {
      var e :| e in expectedList && e !in list;
      assert e in E - Elements(list);
    }
  }

  /** An empty expected list is always included. */
  lemma EmptyExpectedIsIncluded<T>(list: seq<T>)
    ensures DoesIncludeList(list, [])
  {
    ElementsCardinality(Intersect(list, []));
  }

  /** Only which expected elements `list` holds matters: reordering it,
      adding or removing repetitions, or adding elements that are not
      expected never changes the answer. */
  lemma OnlyExpectedMembershipMatters<T>(list1: seq<T>, list2: seq<T>, expectedList: seq<T>)
    requires forall e :: e in expectedList ==> (e in list1 <==> e in list2)
    ensures DoesIncludeList(list1, expectedList) == DoesIncludeList(list2, expectedList)
  {
  }

  /** An expected list with a repeated element is never included, even in a
      list that contains that element. */
  lemma DuplicateExpectedIsNeverIncluded<T>(list: seq<T>, expectedList: seq<T>)
    requires !NoDuplicates(expectedList)
    ensures !DoesIncludeList(list, expectedList)
  {
    DoesIncludeListCharacterization(list, expectedList);
  }

  /** A concrete instance: "users" is in the list, yet the check that the
      list includes ["users", "users"] fails. */
  lemma DuplicateExpectedCounterexample()
    ensures forall e :: e in ["users", "users"] ==> e in ["users"]
    ensures !DoesIncludeList(["users"], ["users", "users"])
  {
    var expectedList := ["users", "users"];
    assert expectedList[0] == expectedList[1];
    DuplicateExpectedIsNeverIncluded(["users"], expectedList);
  }

  /** LINQ's `Distinct`: each element once; only the contents and the count
      are specified. */
  function Distinct<T(==)>(s: seq<T>): (r: seq<T>)
    ensures NoDuplicates(r)
    ensures Elements(r) == Elements(s)
  {
    IntersectWith(s, Elements(s))
  }

  /** The inclusion check with the expected list's repetitions removed first
      (`list.Intersect(expected).Count() == expected.Distinct().Count()`). */
  function IncludesAll<T(==)>(list: seq<T>, expectedList: seq<T>): bool {
    |Intersect(list, expectedList)| == |Distinct(expectedList)|
  }

  /** The corrected check holds exactly when every expected element occurs in
      `list`, whatever repetitions either list has. */
  lemma IncludesAllCharacterization<T>(list: seq<T>, expectedList: seq<T>)
    ensures IncludesAll(list, expectedList) <==> forall e :: e in expectedList ==> e in list
  {
    var d := Distinct(expectedList);
    assert Intersect(list, expectedList) == Intersect(list, d) by {
      assert Elements(expectedList) == Elements(d);
    }
    DoesIncludeListCharacterization(list, d);
    forall e ensures e in d <==> e in expectedList {
      assert e in d <==> e in Elements(d);
      assert e in expectedList <==> e in Elements(expectedList);
    }
  }

  /** On expected lists without repetitions the two checks agree. */
  lemma IncludesAllAgreesWithoutDuplicates<T>(list: seq<T>, expectedList: seq<T>)
    requires NoDuplicates(expectedList)
    ensures IncludesAll(list, expectedList) == DoesIncludeList(list, expectedList)
  {
    IncludesAllCharacterization(list, expectedList);
    DoesIncludeListCharacterization(list, expectedList);
  }
}

=== FILE: wrappers.dfy ===
/** Failure-carrying values used across the model: a .NET reference that may be
    null becomes an Option, an operation that may end in a failed assertion
    returns a Result. */
module Wrappers {

  /** A value that may be absent (a null reference in the original). */
  datatype Option<+T> = None | Some(value: T)

  /** Either the value an operation returns or the failure it raises. */
  datatype Result<+R, +E> = Success(value: R) | Failure(error: E)

  /** Pass, or the failure a check raises; carries no value. */
  datatype Outcome<+E> = Pass | Fail(error: E)
}
